=== FILE: README.md ===
# COVID-19 question router — a Dafny model

This project models the decision logic of a small chat backend that answers
questions about a COVID-19 country table by sending a prompt to a hosted
language model. The logic it models is the keyword router in
`answer_question`. It picks which data slice, if any, goes on the end of the
user message:

1. If the lower-cased question contains "compare", "difference", "vs" or
   "versus", the router collects the countries whose lower-cased name is a
   substring of the lower-cased question. When at least two are found, their rows are
   appended as a comparison table.
2. Otherwise, if it contains "continent", continent group sums of cases and
   deaths are appended.
3. Otherwise, if it contains "top", "most", "highest" or "worst", the ten rows
   with most total cases are appended.
4. Otherwise nothing is appended.

It also models the `/chat` handler's refusal of an empty question.

Modules:

- `Wrappers`: `Option`, used for a continent cell that may be empty.
- `Text`: ASCII lower-casing (`Lower`), Python's substring test (`Contains`,
  proved equal to the substring definition `Occurs`), and Python's string order
  (`Less`), which orders the group keys.
- `Seqs`: filtering by position, kept in source order.
- `Dataset`: the `Record` row type and the three slices. These are the
  mentioned-country rows, `ContinentSums` (a `groupby(...).sum()` in sorted
  key order) and `TopRows` (`nlargest(10, 'TotalCases')`).
- `Router`: `Classify`, the ordered branch choice; `Route`, the slice that is
  chosen; and a rule table with first-match semantics as an independent
  reference.
- `Prompt`: the two-message prompt, the appended suffix, and the chat guard.

Two details of the comparison branch:

- The name filter is a substring test on lower-cased names, followed by an
  `isin` mask on the names found. `RowsNamedMentioned` proves that the two
  steps together pick exactly the mentioned rows.
- The "at least two countries" threshold counts entries of the mentioned
  list. That list has one entry per table row, so a name that appears on two
  rows counts twice.

## Model

| member | source | states |
|---|---|---|
| Text.Lower | app.py:87 | the lower-cased question has the same length and no ASCII capital letters; `Text.LowerIdempotent` shows lower-casing twice changes nothing |
| Text.Contains | app.py:87 | the `word in text` test returns true exactly when the word occurs as a contiguous substring; the empty word occurs in every text |
| Router.Classify | app.py:87-100 | comparison is chosen iff a comparison word occurs in the lower-cased question; continent iff no comparison word does and "continent" does; top iff neither of those and a top word does; otherwise no branch |
| Router.ClassifyIsFirstMatch | app.py:87-100 | the if/elif chain equals the first matching rule of the ordered table (comparison words, "continent", top words) |
| Router.Route | app.py:85-102 | a comparison table is appended iff the comparison branch is taken and at least two countries are mentioned, and its lines are the name, cases, deaths and recovered columns of exactly the mentioned rows in table order; the continent summary iff the continent branch is taken; the name, cases and deaths columns of the top-10 rows iff the top branch is taken |
| Router.ComparisonHasPriority | app.py:87-100 | when a comparison word occurs, neither the continent nor the top slice is ever chosen, and with fewer than two mentioned countries nothing is appended |
| Router.RouteIgnoresCase | app.py:87-100 | two questions with the same lower-case form take the same branch and get the same slice |
| Router.EmbeddedComparisonWord | app.py:87 | a comparison word inside any surrounding text, of any case, selects the comparison branch |
| Router.EmbeddedContinentWord | app.py:96 | "continent" inside a longer word selects the continent branch when no comparison word occurs |
| Router.EmbeddedTopWord | app.py:100 | a top word inside a longer word selects the top branch when no earlier rule matches |
| Router.TwoMentionedAreCompared | app.py:87-94 | a comparison question that mentions two different rows gets a comparison table with a line for each of the two rows |
| Router.TopQuestionShape | app.py:100-102 | a top question gets min(10, table size) lines in non-increasing order of cases |
| Dataset.MentionedIndices | app.py:89 | the mentioned positions are increasing and valid, and include a row exactly when its lower-cased name occurs in the lower-cased question |
| Dataset.MentionedNames | app.py:89 | the mentioned names are the names at the mentioned positions, in table order, one entry per row |
| Dataset.RowsNamed | app.py:91-93 | the `isin` mask is the table read at increasing positions, one entry per row, holding exactly the rows whose name is in the list |
| Dataset.RowsNamedMentioned | app.py:89-93 | masking with the mentioned names gives exactly the mentioned rows in table order, with no other rows |
| Dataset.ContinentKeys | app.py:97 | the group keys are strictly increasing in string order, so each continent appears once, and they are exactly the continents present in the table |
| Dataset.ContinentSums | app.py:97 | one line per continent present, in sorted order; each line's cases and deaths are the sums over the rows on that continent |
| Dataset.ContinentSumsKnownTotal | app.py:97 | the lines add up to the sum over every row that has a continent; rows without one are dropped |
| Dataset.ContinentSumsGlobalTotal | app.py:97 | when every row has a continent, the lines add up to the global totals of cases and deaths |
| Dataset.TopIndices | app.py:101 | min(n, table size) positions, ranked by more cases and, on ties, earlier row first; every position left out ranks below every position kept |
| Dataset.TopRows | app.py:101 | min(n, table size) rows, each the table row at the matching ranked position (so distinct rows), in non-increasing order of cases; no row left out has more cases than any row kept |
| Prompt.BaseUserContent | app.py:72-81 | the unaugmented user message contains the data context and the question verbatim |
| Prompt.Suffix | app.py:90-102 | the appended text is empty exactly when no slice was chosen; otherwise it starts with the heading of the chosen slice (comparison, continent or top) and ends with the rendered table |
| Prompt.Compose | app.py:56-102 | two messages: the system message is unchanged, the user message starts with the base content and contains the question, and it equals the base content exactly when no slice was chosen; otherwise the base content is followed by the chosen slice's heading and the message ends with its rendering |
| Prompt.PlainQuestionUnchanged | app.py:74-102 | a question with no routing keyword is sent with exactly the base user message |
| Prompt.Chat | app.py:113-121 | an empty message is refused with "No question provided" and no prompt is built; any other message becomes the composed prompt: the system message unchanged, a user message that starts with the base content and contains the message, equal to the base content exactly when no slice was chosen and otherwise continuing with the chosen slice's heading and ending with its rendering |

## Left out

- The outbound call to the language-model service (`call_llm`): network I/O with a timeout, and its reply text. `Prompt.Chat` stops at the prompt that would be sent.
- The web routes, templates, JSON parsing, `/health` and server start-up: web plumbing.
- Loading the CSV file and reading the API key and port from the environment: I/O. The table is a parameter `data`.
- The text of the data context block, which holds thousands-separator formatting and a floating-point mean. It is the parameter `context`. The fixed system instructions are the parameter `system`.
- Pandas' `to_string` rendering of the appended tables: library presentation. It is the parameter `table` of `Prompt.Suffix` and `Prompt.Compose`. The column selections are modelled: a comparison line keeps name, cases, deaths and recovered (`Dataset.CompareRow`), a top line keeps name, cases and deaths (`Dataset.TopRow`).
- The bare `except: pass` around augmentation. In the model every cell is a string or a number, so no augmentation step can fail and the router is total.
- Text.Lower: lower-cases ASCII letters only. Python's `str.lower` also folds non-ASCII letters, and that Unicode case table is not modelled.
- Dataset.Record: the case, death and recovered cells are natural numbers. Empty numeric cells (pandas NaN) are not modelled: `sum` skips them, and `nlargest` ranks them after every number. An empty continent cell is modelled as `None`.
- Prompt.Chat: the message is a string. Non-string JSON values (`null`, numbers, lists) and the error reply when an exception escapes `answer_question` are not modelled.

=== FILE: dataset.dfy ===
/** The country table and the three slices the router can append to a
    prompt: the rows of mentioned countries, continent group sums, and the
    ten rows with most cases. */
module Dataset {
  import opened Wrappers
  import opened Text
  import opened Seqs

  /** One row of the table, restricted to the columns the router reads.
      A missing continent cell is `None`. */
  datatype Record = Record(
    name: string,
    continent: Option<string>,
    cases: nat,
    deaths: nat,
    recovered: nat)

  /** The whole table, in file order. */
  type Table = seq<Record>

  /** The numeric columns that get summed. */
  datatype Column = Cases | Deaths | Recovered

  function Value(r: Record, col: Column): nat {
    match col
    case Cases => r.cases
    case Deaths => r.deaths
    case Recovered => r.recovered
  }

  function Min(a: nat, b: nat): nat {
    if a <= b then a else b
  }

  // ---------------------------------------------------------------------
  // Comparison slice
  // ---------------------------------------------------------------------

  /** A country is mentioned when its lower-cased name is a substring of the
      lower-cased question. */
  predicate Mentions(question: string, name: string) {
    Contains(Lower(question), Lower(name))
  }

  function MentionTest(question: string): Record -> bool {
    (r: Record) => Mentions(question, r.name)
  }

  /** Positions of the mentioned countries, in table order. */
  function MentionedIndices(data: Table, question: string): (ix: seq<nat>)
    ensures Increasing(ix) && InRange(ix, |data|)
    ensures forall i :: 0 <= i < |data| ==>
              (i in ix <==> Occurs(Lower(data[i].name), Lower(question)))
  {
    FilterIndices(data, MentionTest(question))
  }

  /** The list of mentioned country names: the table-order subsequence of
      names whose lower-case form occurs in the lower-cased question. */
  function MentionedNames(data: Table, question: string): (names: seq<string>)
    ensures |names| == |MentionedIndices(data, question)|
    ensures forall k :: 0 <= k < |names| ==>
              names[k] == data[MentionedIndices(data, question)[k]].name
  {
    var ix := MentionedIndices(data, question);
    seq(|ix|, k requires 0 <= k < |ix| => data[ix[k]].name)
  }

  function NameTest(names: seq<string>): Record -> bool {
    (r: Record) => r.name in names
  }

  /** The rows whose name is one of `names` (an `isin` row mask), in table order. */
  function RowsNamed(data: Table, names: seq<string>): (rows: Table)
    ensures forall k :: 0 <= k < |rows| ==> rows[k] in data && rows[k].name in names
    ensures forall i :: 0 <= i < |data| && data[i].name in names ==> data[i] in rows
    ensures exists ix :: Selects(rows, data, ix) &&
              (forall i :: 0 <= i < |data| ==> (i in ix <==> data[i].name in names))
  {
    Filter(data, NameTest(names))
  }

  /** Masking the table with the mentioned names yields exactly the mentioned
      rows in table order, and nothing else. */
  lemma RowsNamedMentioned(data: Table, question: string)
    ensures RowsNamed(data, MentionedNames(data, question))
         == Select(data, MentionedIndices(data, question))
  {
    var ix := MentionedIndices(data, question);
    var names := MentionedNames(data, question);
    forall i | 0 <= i < |data|
      ensures NameTest(names)(data[i]) == MentionTest(question)(data[i])
    {
      if data[i].name in names {
        var k :| 0 <= k < |names| && names[k] == data[i].name;
        assert ix[k] in ix;
      }
      if i in ix {
        var k :| 0 <= k < |ix| && ix[k] == i;
        assert names[k] == data[i].name;
      }
    }
    FilterFromCongruent(data, NameTest(names), MentionTest(question), 0);
  }

  // ---------------------------------------------------------------------
  // Continent slice
  // ---------------------------------------------------------------------

  /** Strictly increasing in Python's string order (so free of duplicates). */
  predicate StrictlySorted(ks: seq<string>) {
    forall a, b :: 0 <= a < b < |ks| ==> Less(ks[a], ks[b])
  }

  /** Some row of the table lies on continent `c`. */
  ghost predicate HasContinent(data: Table, c: string) {
    exists i :: 0 <= i < |data| && data[i].continent == Some(c)
  }

  lemma BelowSorted(c: string, ks: seq<string>)
    requires StrictlySorted(ks) && |ks| > 0 && Less(c, ks[0])
    ensures forall b :: 0 <= b < |ks| ==> Less(c, ks[b])
  {
    forall b | 0 < b < |ks| {
      LessTransitive(c, ks[0], ks[b]);
    }
  }

  /** Adds `c` to a sorted key list unless it is already there. */
  function InsertKey(ks: seq<string>, c: string): (r: seq<string>)
    requires StrictlySorted(ks)
    ensures StrictlySorted(r)
    ensures forall x :: x in r <==> x in ks || x == c
  {
    if |ks| == 0 then
      [c]
    else if c == ks[0] then
      ks
    else if Less(c, ks[0]) then
      BelowSorted(c, ks);
      [c] + ks
    else
      LessTotal(c, ks[0]);
      var rest := InsertKey(ks[1..], c);
      assert forall x :: x in rest ==> Less(ks[0], x) by {
        forall x | x in rest ensures Less(ks[0], x) {
          if x != c {
            var b :| 0 <= b < |ks[1..]| && ks[1..][b] == x;
            assert ks[b + 1] == x;
          }
        }
      }
      ConsSorted(ks[0], rest);
      [ks[0]] + rest
  }

  lemma ConsSorted(h: string, rest: seq<string>)
    requires StrictlySorted(rest)
    requires forall x :: x in rest ==> Less(h, x)
    ensures StrictlySorted([h] + rest)
  {
    forall a, b | 0 <= a < b < |[h] + rest|
      ensures Less(([h] + rest)[a], ([h] + rest)[b])
    {
      if a > 0 {
        assert ([h] + rest)[a] == rest[a - 1];
      }
      assert ([h] + rest)[b] == rest[b - 1];
    }
  }

  /** The distinct continents of the table, in sorted order (the group keys). */
  function ContinentKeys(data: Table): (ks: seq<string>)
    ensures StrictlySorted(ks)
    ensures forall c :: c in ks <==> HasContinent(data, c)
    decreases |data|
  {
    if |data| == 0 then
      []
    else
      var rest := ContinentKeys(data[1..]);
      assert forall c :: HasContinent(data, c) <==>
               data[0].continent == Some(c) || HasContinent(data[1..], c) by {
        forall c | HasContinent(data, c)
          ensures data[0].continent == Some(c) || HasContinent(data[1..], c)
        {
          var i :| 0 <= i < |data| && data[i].continent == Some(c);
          if i > 0 {
            assert data[1..][i - 1] == data[i];
          }
        }
        forall c | HasContinent(data[1..], c)
          ensures HasContinent(data, c)
        {
          var i :| 0 <= i < |data[1..]| && data[1..][i].continent == Some(c);
          assert data[i + 1] == data[1..][i];
        }
      }
      match data[0].continent
      case None => rest
      case Some(c) => InsertKey(rest, c)
  }

  /** Row `r` lies on one of the continents in `keys`. */
  predicate OnContinentIn(r: Record, keys: set<string>) {
    r.continent.Some? && r.continent.value in keys
  }

  /** Sum of `col` over the rows lying on a continent in `keys`. */
  function SumIn(data: Table, keys: set<string>, col: Column): nat
    decreases |data|
  {
    if |data| == 0 then 0
    else (if OnContinentIn(data[0], keys) then Value(data[0], col) else 0)
         + SumIn(data[1..], keys, col)
  }

  /** Sum of `col` over the rows that have a continent at all. */
  function KnownTotal(data: Table, col: Column): nat
    decreases |data|
  {
    if |data| == 0 then 0
    else (if data[0].continent.Some? then Value(data[0], col) else 0)
         + KnownTotal(data[1..], col)
  }

  /** Sum of `col` over every row. */
  function Total(data: Table, col: Column): nat
    decreases |data|
  {
    if |data| == 0 then 0 else Value(data[0], col) + Total(data[1..], col)
  }

  /** One line of the continent summary: a continent and its summed columns. */
  datatype ContinentTotal = ContinentTotal(continent: string, cases: nat, deaths: nat)

  /** `groupby('Continent')[['TotalCases', 'TotalDeaths']].sum()`: one line
      per continent present, in sorted key order, rows without a continent
      dropped. */
  function ContinentSums(data: Table): (groups: seq<ContinentTotal>)
    ensures forall a, b :: 0 <= a < b < |groups| ==>
              Less(groups[a].continent, groups[b].continent)
    ensures forall k :: 0 <= k < |groups| ==> HasContinent(data, groups[k].continent)
    ensures forall c :: HasContinent(data, c) ==>
              exists k :: 0 <= k < |groups| && groups[k].continent == c
    ensures forall k :: 0 <= k < |groups| ==>
              && groups[k].cases == SumIn(data, {groups[k].continent}, Cases)
              && groups[k].deaths == SumIn(data, {groups[k].continent}, Deaths)
  {
    var ks := ContinentKeys(data);
    var groups := seq(|ks|, k requires 0 <= k < |ks| =>
      ContinentTotal(ks[k], SumIn(data, {ks[k]}, Cases), SumIn(data, {ks[k]}, Deaths)));
    assert forall c :: HasContinent(data, c) ==>
             exists k :: 0 <= k < |groups| && groups[k].continent == c by {
      forall c | HasContinent(data, c)
        ensures exists k :: 0 <= k < |groups| && groups[k].continent == c
      {
        var k :| 0 <= k < |ks| && ks[k] == c;
        assert groups[k].continent == c;
      }
    }
    groups
  }

  /** The summed column `col` of one summary line (only cases and deaths are summed). */
  function LineValue(g: ContinentTotal, col: Column): nat
    requires col != Recovered
  {
    if col == Cases then g.cases else g.deaths
  }

  /** The summary's column `col` added up over all its lines. */
  function LinesTotal(groups: seq<ContinentTotal>, col: Column): nat
    requires col != Recovered
    decreases |groups|
  {
    if |groups| == 0 then 0 else LineValue(groups[0], col) + LinesTotal(groups[1..], col)
  }

  /** The continents named by the summary lines. */
  function KeySet(groups: seq<ContinentTotal>): (keys: set<string>)
    ensures forall c :: c in keys <==> exists k :: 0 <= k < |groups| && groups[k].continent == c
    decreases |groups|
  {
    if |groups| == 0 then {}
    else
      var rest := KeySet(groups[1..]);
      assert forall c :: c in rest ==> exists k :: 0 <= k < |groups| && groups[k].continent == c by {
        forall c | c in rest
          ensures exists k :: 0 <= k < |groups| && groups[k].continent == c
        {
          var k :| 0 <= k < |groups[1..]| && groups[1..][k].continent == c;
          assert groups[k + 1].continent == c;
        }
      }
      assert forall k :: 1 <= k < |groups| ==> groups[k].continent == groups[1..][k - 1].continent;
      {groups[0].continent} + rest
  }

  lemma {:induction false} SumInNothing(data: Table, col: Column)
    ensures SumIn(data, {}, col) == 0
    decreases |data|
  {
    if |data| > 0 {
      SumInNothing(data[1..], col);
    }
  }

  /** Adding a new continent to the key set adds exactly that continent's group sum. */
  lemma {:induction false} SumInSplit(data: Table, keys: set<string>, c: string, col: Column)
    requires c !in keys
    ensures SumIn(data, keys + {c}, col) == SumIn(data, {c}, col) + SumIn(data, keys, col)
    decreases |data|
  {
    if |data| > 0 {
      SumInSplit(data[1..], keys, c, col);
    }
  }

  /** When `keys` holds the continent of every row that has one, summing over
      `keys` is summing over every row with a continent. */
  lemma {:induction false} SumInCovers(data: Table, keys: set<string>, col: Column)
    requires forall i :: 0 <= i < |data| && data[i].continent.Some? ==> data[i].continent.value in keys
    ensures SumIn(data, keys, col) == KnownTotal(data, col)
    decreases |data|
  {
    if |data| > 0 {
      assert forall i :: 1 <= i < |data| ==> data[1..][i - 1] == data[i];
      SumInCovers(data[1..], keys, col);
    }
  }

  /** Summary lines with distinct continents, each holding its group sum,
      add up to the sum over all rows on those continents. */
  lemma {:induction false} LinesTotalIsSumIn(data: Table, groups: seq<ContinentTotal>, col: Column)
    requires col != Recovered
    requires forall a, b :: 0 <= a < b < |groups| ==> Less(groups[a].continent, groups[b].continent)
    requires forall k :: 0 <= k < |groups| ==>
               LineValue(groups[k], col) == SumIn(data, {groups[k].continent}, col)
    ensures LinesTotal(groups, col) == SumIn(data, KeySet(groups), col)
    decreases |groups|
  {
    if |groups| == 0 {
      SumInNothing(data, col);
    } else {
      var c := groups[0].continent;
      var rest := groups[1..];
      assert forall k :: 0 <= k < |rest| ==> rest[k] == groups[k + 1];
      LinesTotalIsSumIn(data, rest, col);
      assert c !in KeySet(rest) by {
        if c in KeySet(rest) {
          var k :| 0 <= k < |rest| && rest[k].continent == c;
          assert Less(groups[0].continent, groups[k + 1].continent);
          LessIrreflexive(c);
        }
      }
      SumInSplit(data, KeySet(rest), c, col);
      assert KeySet(groups) == KeySet(rest) + {c};
    }
  }

  /** Without missing continents, the rows with a continent are all rows. */
  lemma {:induction false} KnownTotalIsTotal(data: Table, col: Column)
    requires forall i :: 0 <= i < |data| ==> data[i].continent.Some?
    ensures KnownTotal(data, col) == Total(data, col)
    decreases |data|
  {
    if |data| > 0 {
      assert forall i :: 1 <= i < |data| ==> data[1..][i - 1] == data[i];
      KnownTotalIsTotal(data[1..], col);
    }
  }

  /** The continent summary adds up to the totals over all rows that have a
      continent; rows without one are dropped, as `groupby` does. */
  lemma ContinentSumsKnownTotal(data: Table, col: Column)
    requires col != Recovered
    ensures LinesTotal(ContinentSums(data), col) == KnownTotal(data, col)
  {
    var groups := ContinentSums(data);
    LinesTotalIsSumIn(data, groups, col);
    forall i | 0 <= i < |data| && data[i].continent.Some?
      ensures data[i].continent.value in KeySet(groups)
    {
      assert HasContinent(data, data[i].continent.value);
    }
    SumInCovers(data, KeySet(groups), col);
  }

  /** When every row has a continent, the continent summary adds up to the
      global totals of cases and deaths. */
  lemma ContinentSumsGlobalTotal(data: Table)
    requires forall i :: 0 <= i < |data| ==> data[i].continent.Some?
    ensures LinesTotal(ContinentSums(data), Cases) == Total(data, Cases)
    ensures LinesTotal(ContinentSums(data), Deaths) == Total(data, Deaths)
  {
    ContinentSumsKnownTotal(data, Cases);
    ContinentSumsKnownTotal(data, Deaths);
    KnownTotalIsTotal(data, Cases);
    KnownTotalIsTotal(data, Deaths);
  }

  // ---------------------------------------------------------------------
  // Top slice
  // ---------------------------------------------------------------------

  /** Row `i` ranks ahead of row `j` in `nlargest(n, 'TotalCases')`: more
      cases, or equal cases and earlier in the table. */
  predicate Ahead(data: Table, i: nat, j: nat) {
    && i < |data| && j < |data|
    && (data[i].cases > data[j].cases || (data[i].cases == data[j].cases && i < j))
  }

  /** The positions are listed best-ranked first. */
  predicate Ranked(data: Table, ix: seq<nat>) {
    forall a, b :: 0 <= a < b < |ix| ==> Ahead(data, ix[a], ix[b])
  }

  /** Inserts position `i` into a ranked list at its place. */
  function InsertRank(data: Table, ix: seq<nat>, i: nat): (r: seq<nat>)
    requires Ranked(data, ix) && InRange(ix, |data|)
    requires i < |data| && i !in ix
    ensures Ranked(data, r) && InRange(r, |data|)
    ensures |r| == |ix| + 1
    ensures forall x :: x in r <==> x in ix || x == i
  {
    if |ix| == 0 then
      [i]
    else if Ahead(data, i, ix[0]) then
      [i] + ix
    else
      var rest := InsertRank(data, ix[1..], i);
      assert forall x :: x in rest ==> Ahead(data, ix[0], x) by {
        forall x | x in rest ensures Ahead(data, ix[0], x) {
          if x != i {
            var b :| 0 <= b < |ix[1..]| && ix[1..][b] == x;
            assert ix[b + 1] == x;
          }
        }
      }
      ConsRanked(data, ix[0], rest);
      [ix[0]] + rest
  }

  lemma ConsRanked(data: Table, h: nat, rest: seq<nat>)
    requires Ranked(data, rest)
    requires forall x :: x in rest ==> Ahead(data, h, x)
    ensures Ranked(data, [h] + rest)
  {
    forall a, b | 0 <= a < b < |[h] + rest|
      ensures Ahead(data, ([h] + rest)[a], ([h] + rest)[b])
    {
      if a > 0 {
        assert ([h] + rest)[a] == rest[a - 1];
      }
      assert ([h] + rest)[b] == rest[b - 1];
    }
  }

  /** The positions `0 .. m-1`, ranked. */
  function RankPrefix(data: Table, m: nat): (ix: seq<nat>)
    requires m <= |data|
    ensures Ranked(data, ix) && InRange(ix, |data|)
    ensures |ix| == m
    ensures forall i: nat :: i in ix <==> i < m
  {
    if m == 0 then [] else InsertRank(data, RankPrefix(data, m - 1), m - 1)
  }

  /** Positions of the `n` rows with most cases, best first, ties kept in
      table order (`nlargest` with `keep='first'`). */
  function TopIndices(data: Table, n: nat): (ix: seq<nat>)
    ensures |ix| == Min(n, |data|)
    ensures Ranked(data, ix) && InRange(ix, |data|)
    ensures forall j, k :: 0 <= j < |data| && j !in ix && 0 <= k < |ix| ==>
              Ahead(data, ix[k], j)
  {
    var full := RankPrefix(data, |data|);
    var m := Min(n, |data|);
    assert forall j, k :: 0 <= j < |data| && j !in full[..m] && 0 <= k < m ==>
             Ahead(data, full[k], j) by {
      forall j, k | 0 <= j < |data| && j !in full[..m] && 0 <= k < m
        ensures Ahead(data, full[k], j)
      {
        assert j in full;
        var p :| 0 <= p < |full| && full[p] == j;
      }
    }
    full[..m]
  }

  /** The rows of `TopIndices`, i.e. the `n` largest rows by total cases. */
  function TopRows(data: Table, n: nat): (rows: Table)
    ensures |rows| == Min(n, |data|)
    ensures forall k :: 0 <= k < |rows| ==> rows[k] == data[TopIndices(data, n)[k]]
    ensures forall a, b :: 0 <= a < b < |rows| ==> rows[a].cases >= rows[b].cases
    ensures forall k :: 0 <= k < |rows| ==> rows[k] in data
    ensures forall j, k :: 0 <= j < |data| && j !in TopIndices(data, n) && 0 <= k < |rows| ==>
              data[j].cases <= rows[k].cases
  {
    Select(data, TopIndices(data, n))
  }

  // ---------------------------------------------------------------------
  // Column selections of the appended tables
  // ---------------------------------------------------------------------

  /** A line of the comparison table: `Country/Region, TotalCases,
      TotalDeaths, TotalRecovered`. */
  datatype CompareRow = CompareRow(name: string, cases: nat, deaths: nat, recovered: nat)

  /** A line of the top table: `Country/Region, TotalCases, TotalDeaths`. */
  datatype TopRow = TopRow(name: string, cases: nat, deaths: nat)

  function CompareRowOf(r: Record): CompareRow {
    CompareRow(r.name, r.cases, r.deaths, r.recovered)
  }

  function TopRowOf(r: Record): TopRow {
    TopRow(r.name, r.cases, r.deaths)
  }

  /** The comparison columns of each row, row order kept. */
  function CompareColumns(rows: Table): (out: seq<CompareRow>)
    ensures |out| == |rows|
    ensures forall k :: 0 <= k < |rows| ==> out[k] == CompareRowOf(rows[k])
  {
    seq(|rows|, k requires 0 <= k < |rows| => CompareRowOf(rows[k]))
  }

  /** The top-table columns of each row, row order kept. */
  function TopColumns(rows: Table): (out: seq<TopRow>)
    ensures |out| == |rows|
    ensures forall k :: 0 <= k < |rows| ==> out[k] == TopRowOf(rows[k])
  {
    seq(|rows|, k requires 0 <= k < |rows| => TopRowOf(rows[k]))
  }
}

=== FILE: prompt.dfy ===
/** The two-message prompt of `answer_question` and the empty-question
    guard of the `/chat` handler. The rendered text of the data context and
    of the appended tables are inputs: they are presentation, computed by
    string formatting and by pandas' `to_string`. */
module Prompt {
  import opened Text
  import opened Dataset
  import opened Router

  datatype Message = Message(role: string, content: string)

  const SystemRole: string := "system"
  const UserRole: string := "user"

  const UserOpening: string := "Based on this COVID-19 dataset:\n\n"
  const QuestionLabel: string := "\n\nUser question: "
  const UserClosing: string :=
    "\n\nPlease provide a helpful, conversational answer. Include specific numbers from the data when relevant."

  const CompareHeading: string := "\n\nSpecific comparison data:\n"
  const ContinentHeading: string := "\n\nContinent summary:\n"
  const TopHeading: string := "\n\nTop 10 countries data:\n"

  /** Error text returned for a missing or empty question. */
  const NoQuestionError: string := "No question provided"

  /** The user message before any augmentation: the data context and the
      question inside the fixed template. */
  function BaseUserContent(context: string, question: string): (s: string)
    ensures Occurs(question, s)
    ensures Occurs(context, s)
  {
    var before := UserOpening + context + QuestionLabel;
    OccursAtEnd(before, question);
    OccursExtend(question, before + question, UserClosing);
    OccursAtEnd(UserOpening, context);
    OccursExtend(context, UserOpening + context, QuestionLabel);
    OccursExtend(context, before, question);
    OccursExtend(context, before + question, UserClosing);
    before + question + UserClosing
  }

  /** The text appended to the user message for a routed slice: a heading
      and the rendered table; nothing at all when no slice was chosen. */
  function Suffix(aug: Aug, table: Aug -> string): (s: string)
    ensures aug == NoAug <==> s == ""
    ensures aug.Compare? ==> CompareHeading <= s
    ensures aug.Continent? ==> ContinentHeading <= s
    ensures aug.Top? ==> TopHeading <= s
    ensures aug != NoAug ==> |s| > |table(aug)| && s[|s| - |table(aug)|..] == table(aug)
  {
    match aug
    case Compare(_) => CompareHeading + table(aug)
    case Continent(_) => ContinentHeading + table(aug)
    case Top(_) => TopHeading + table(aug)
    case NoAug => ""
  }

  /** `answer_question` up to the outbound call: the system message with the
      fixed instructions, then the user message with the routed slice
      appended to it. */
  function Compose(data: Table, question: string, system: string, context: string,
                   table: Aug -> string): (msgs: seq<Message>)
    ensures |msgs| == 2
    ensures msgs[0] == Message(SystemRole, system)
    ensures msgs[1].role == UserRole
    ensures BaseUserContent(context, question) <= msgs[1].content
    ensures msgs[1].content == BaseUserContent(context, question) <==> Route(data, question) == NoAug
    ensures Route(data, question) != NoAug ==>
              var tbl := table(Route(data, question));
              |msgs[1].content| > |BaseUserContent(context, question)| + |tbl| &&
              msgs[1].content[|msgs[1].content| - |tbl|..] == tbl
    ensures Route(data, question).Compare? ==>
              BaseUserContent(context, question) + CompareHeading <= msgs[1].content
    ensures Route(data, question).Continent? ==>
              BaseUserContent(context, question) + ContinentHeading <= msgs[1].content
    ensures Route(data, question).Top? ==>
              BaseUserContent(context, question) + TopHeading <= msgs[1].content
    ensures Occurs(question, msgs[1].content)
  {
    var base := BaseUserContent(context, question);
    var aug := Route(data, question);
    AppendedSuffix(base, question, aug, table);
    [Message(SystemRole, system), Message(UserRole, base + Suffix(aug, table))]
  }

  /** What appending a slice's suffix to a base text keeps and adds. */
  lemma AppendedSuffix(base: string, question: string, aug: Aug, table: Aug -> string)
    requires Occurs(question, base)
    ensures base <= base + Suffix(aug, table)
    ensures base + Suffix(aug, table) == base <==> aug == NoAug
    ensures aug != NoAug ==>
              var user := base + Suffix(aug, table);
              |user| > |base| + |table(aug)| && user[|user| - |table(aug)|..] == table(aug)
    ensures aug.Compare? ==> base + CompareHeading <= base + Suffix(aug, table)
    ensures aug.Continent? ==> base + ContinentHeading <= base + Suffix(aug, table)
    ensures aug.Top? ==> base + TopHeading <= base + Suffix(aug, table)
    ensures Occurs(question, base + Suffix(aug, table))
  {
    var suffix := Suffix(aug, table);
    SuffixHeading(base, aug, suffix, table);
    if aug != NoAug {
      EndsWithAfterPrefix(base, suffix, table(aug));
    }
    PrefixAfterBase(base, [], suffix);
    OccursExtend(question, base, suffix);
  }

  /** The heading of the chosen slice follows the base text directly. */
  lemma SuffixHeading(base: string, aug: Aug, suffix: string, table: Aug -> string)
    requires suffix == Suffix(aug, table)
    ensures aug.Compare? ==> base + CompareHeading <= base + suffix
    ensures aug.Continent? ==> base + ContinentHeading <= base + suffix
    ensures aug.Top? ==> base + TopHeading <= base + suffix
  {
    match aug
    case Compare(_) => PrefixAfterBase(base, CompareHeading, suffix);
    case Continent(_) => PrefixAfterBase(base, ContinentHeading, suffix);
    case Top(_) => PrefixAfterBase(base, TopHeading, suffix);
    case NoAug =>
  }

  /** A prefix of `s` stays a prefix when both get the same text in front. */
  lemma PrefixAfterBase(base: string, head: string, s: string)
    requires head <= s
    ensures base + head <= base + s
    ensures base <= base + s
  {
    assert (base + s)[..|base + head|] == base + head;
    assert (base + s)[..|base|] == base;
  }

  /** A text that ends with `tail` still ends with it after a prefix is put
      in front. */
  lemma EndsWithAfterPrefix(prefix: string, s: string, tail: string)
    requires |s| > |tail| && s[|s| - |tail|..] == tail
    ensures |prefix + s| > |prefix| + |tail|
    ensures (prefix + s)[|prefix + s| - |tail|..] == tail
  {
    assert (prefix + s)[|prefix + s| - |tail|..] == s[|s| - |tail|..];
  }

  /** What the `/chat` handler does with a request's message. */
  datatype Reply =
    | Rejected(error: string)
    | Forward(messages: seq<Message>)

  /** The `/chat` handler before the outbound call: an empty message is
      refused, anything else is composed into a prompt. */
  function Chat(data: Table, message: string, system: string, context: string,
                table: Aug -> string): (reply: Reply)
    ensures reply.Rejected? <==> message == ""
    ensures reply.Rejected? ==> reply.error == NoQuestionError
    ensures reply.Forward? ==> |reply.messages| == 2 && Occurs(message, reply.messages[1].content)
    ensures reply.Forward? ==>
              && reply.messages[0] == Message(SystemRole, system)
              && reply.messages[1].role == UserRole
              && BaseUserContent(context, message) <= reply.messages[1].content
              && (reply.messages[1].content == BaseUserContent(context, message)
                  <==> Route(data, message) == NoAug)
    ensures reply.Forward? && Route(data, message) != NoAug ==>
              var content := reply.messages[1].content;
              var tbl := table(Route(data, message));
              |content| > |BaseUserContent(context, message)| + |tbl| &&
              content[|content| - |tbl|..] == tbl
    ensures reply.Forward? && Route(data, message).Compare? ==>
              BaseUserContent(context, message) + CompareHeading <= reply.messages[1].content
    ensures reply.Forward? && Route(data, message).Continent? ==>
              BaseUserContent(context, message) + ContinentHeading <= reply.messages[1].content
    ensures reply.Forward? && Route(data, message).Top? ==>
              BaseUserContent(context, message) + TopHeading <= reply.messages[1].content
  {
    if message == "" then Rejected(NoQuestionError)
    else
      var msgs := Compose(data, message, system, context, table);
      var aug := Route(data, message);
      var base := BaseUserContent(context, message);
      assert msgs[1].content == base + Suffix(aug, table);
      Forward(msgs)
  }

  /** Without a routing keyword the user message is exactly the base
      template around the question. */
  lemma PlainQuestionUnchanged(data: Table, question: string, system: string, context: string,
                               table: Aug -> string)
    requires Classify(question) == Plain
    ensures Compose(data, question, system, context, table)[1].content
         == BaseUserContent(context, question)
  {
  }
}

=== FILE: router.dfy ===
/** The keyword router of `answer_question`: which data slice, if any, is
    appended to the user message. Rules are tried in a fixed order on the
    lower-cased question and the first one that matches wins. */
module Router {
  import opened Text
  import opened Seqs
  import opened Dataset

  const CompareWords: seq<string> := ["compare", "difference", "vs", "versus"]
  const ContinentWord: string := "continent"
  const TopWords: seq<string> := ["top", "most", "highest", "worst"]

  /** Rows in the top slice. */
  const TopCount: nat := 10
  /** Mentioned countries needed before a comparison table is appended. */
  const MinCompared: nat := 2

  /** `any(word in q for word in words)`. */
  predicate AnyIn(q: string, words: seq<string>) {
    exists k :: 0 <= k < |words| && Contains(q, words[k])
  }

  /** Some word of `words` is a substring of the lower-cased question. */
  ghost predicate Triggers(question: string, words: seq<string>) {
    exists k :: 0 <= k < |words| && Occurs(words[k], Lower(question))
  }

  /** The branch of the router a question takes. */
  datatype Branch = Comparison | ContinentSummary | TopList | Plain

  /** The `if / elif / elif` chain: comparison words first, then
      "continent", then the top words, otherwise no branch. */
  function Classify(question: string): (b: Branch)
    ensures b == Comparison <==> Triggers(question, CompareWords)
    ensures b == ContinentSummary <==>
              !Triggers(question, CompareWords) && Occurs(ContinentWord, Lower(question))
    ensures b == TopList <==>
              && !Triggers(question, CompareWords)
              && !Occurs(ContinentWord, Lower(question))
              && Triggers(question, TopWords)
  {
    var q := Lower(question);
    if AnyIn(q, CompareWords) then Comparison
    else if Contains(q, ContinentWord) then ContinentSummary
    else if AnyIn(q, TopWords) then TopList
    else Plain
  }

  /** A routing rule: its keywords and the branch it selects. */
  datatype Rule = Rule(words: seq<string>, branch: Branch)

  /** The router as an ordered rule table. */
  const Rules: seq<Rule> := [
    Rule(CompareWords, Comparison),
    Rule([ContinentWord], ContinentSummary),
    Rule(TopWords, TopList)
  ]

  /** Reference semantics of an ordered rule table: the branch of the first
      rule one of whose words occurs in `q`, or `Plain`. */
  function FirstMatch(rules: seq<Rule>, q: string): Branch
    decreases |rules|
  {
    if |rules| == 0 then Plain
    else if AnyIn(q, rules[0].words) then rules[0].branch
    else FirstMatch(rules[1..], q)
  }

  /** The `if / elif` chain is the first-match reading of the rule table. */
  lemma ClassifyIsFirstMatch(question: string)
    ensures Classify(question) == FirstMatch(Rules, Lower(question))
  {
    var q := Lower(question);
    var cw: seq<string> := [ContinentWord];
    assert cw[0] == ContinentWord;
    assert AnyIn(q, cw) <==> Contains(q, ContinentWord);
    assert Rules[0] == Rule(CompareWords, Comparison);
    assert Rules[1..][0] == Rule(cw, ContinentSummary);
    assert Rules[1..][1..][0] == Rule(TopWords, TopList);
    assert Rules[1..][1..][1..] == [];
    assert FirstMatch(Rules[1..][1..], q) == if AnyIn(q, TopWords) then TopList else Plain;
    assert FirstMatch(Rules[1..], q)
        == if AnyIn(q, cw) then ContinentSummary else FirstMatch(Rules[1..][1..], q);
  }

  /** The augmentation the router selects. */
  datatype Aug =
    | Compare(compared: seq<CompareRow>)
    | Continent(sums: seq<ContinentTotal>)
    | Top(top: seq<TopRow>)
    | NoAug

  /** The slice appended for `question`: a comparison table when at least
      two countries are mentioned, the continent summary, the top ten rows,
      or nothing. */
  function Route(data: Table, question: string): (aug: Aug)
    ensures aug.Compare? <==>
              Classify(question) == Comparison && |MentionedNames(data, question)| >= MinCompared
    ensures aug.Compare? ==>
              aug.compared == CompareColumns(Select(data, MentionedIndices(data, question)))
    ensures aug.Continent? <==> Classify(question) == ContinentSummary
    ensures aug.Continent? ==> aug.sums == ContinentSums(data)
    ensures aug.Top? <==> Classify(question) == TopList
    ensures aug.Top? ==> aug.top == TopColumns(TopRows(data, TopCount))
  {
    match Classify(question)
    case Comparison =>
      var names := MentionedNames(data, question);
      if |names| >= MinCompared then
        RowsNamedMentioned(data, question);
        Compare(CompareColumns(RowsNamed(data, names)))
      else
        NoAug
    case ContinentSummary => Continent(ContinentSums(data))
    case TopList => Top(TopColumns(TopRows(data, TopCount)))
    case Plain => NoAug
  }

  /** A comparison word shuts out the continent and top branches, even when
      too few countries are mentioned for a table. */
  lemma ComparisonHasPriority(data: Table, question: string)
    requires Triggers(question, CompareWords)
    ensures !Route(data, question).Continent? && !Route(data, question).Top?
    ensures |MentionedNames(data, question)| < MinCompared ==> Route(data, question) == NoAug
  {
  }

  /** Questions with the same lower-case form are routed alike. */
  lemma RouteIgnoresCase(data: Table, a: string, b: string)
    requires Lower(a) == Lower(b)
    ensures Classify(a) == Classify(b)
    ensures Route(data, a) == Route(data, b)
  {
    forall i | 0 <= i < |data|
      ensures MentionTest(a)(data[i]) == MentionTest(b)(data[i])
    {
    }
    FilterFromCongruent(data, MentionTest(a), MentionTest(b), 0);
  }

  /** A comparison word inside a longer word still selects the comparison
      branch: the test is a plain substring test. */
  lemma EmbeddedComparisonWord(pre: string, k: nat, post: string)
    requires k < |CompareWords|
    ensures Classify(pre + CompareWords[k] + post) == Comparison
  {
    var w := CompareWords[k];
    LowerConcat(pre + w, post);
    LowerConcat(pre, w);
    LowerFixesLower(w);
    ContainsInfix(Lower(pre), w, Lower(post));
  }

  /** "continent" inside a longer word ("continental") selects the continent
      branch when no comparison word occurs. */
  lemma EmbeddedContinentWord(pre: string, post: string)
    requires !Triggers(pre + ContinentWord + post, CompareWords)
    ensures Classify(pre + ContinentWord + post) == ContinentSummary
  {
    LowerConcat(pre + ContinentWord, post);
    LowerConcat(pre, ContinentWord);
    LowerFixesLower(ContinentWord);
    ContainsInfix(Lower(pre), ContinentWord, Lower(post));
  }

  /** A top word inside a longer word selects the top branch when no earlier
      rule matches. */
  lemma EmbeddedTopWord(pre: string, k: nat, post: string)
    requires k < |TopWords|
    requires !Triggers(pre + TopWords[k] + post, CompareWords)
    requires !Occurs(ContinentWord, Lower(pre + TopWords[k] + post))
    ensures Classify(pre + TopWords[k] + post) == TopList
  {
    var w := TopWords[k];
    LowerConcat(pre + w, post);
    LowerConcat(pre, w);
    LowerFixesLower(w);
    ContainsInfix(Lower(pre), w, Lower(post));
  }

  /** A comparison question naming two different rows of the table gets a
      comparison table holding both rows. */
  lemma TwoMentionedAreCompared(data: Table, question: string, i: nat, j: nat)
    requires Triggers(question, CompareWords)
    requires i < |data| && j < |data| && i != j
    requires Occurs(Lower(data[i].name), Lower(question))
    requires Occurs(Lower(data[j].name), Lower(question))
    ensures Route(data, question).Compare?
    ensures CompareRowOf(data[i]) in Route(data, question).compared
    ensures CompareRowOf(data[j]) in Route(data, question).compared
  {
    var ix := MentionedIndices(data, question);
    assert i in ix && j in ix;
    var ki :| 0 <= ki < |ix| && ix[ki] == i;
    var kj :| 0 <= kj < |ix| && ix[kj] == j;
    assert ki != kj;
    assert |MentionedNames(data, question)| >= MinCompared;
    assert Route(data, question).compared == CompareColumns(Select(data, ix));
    MentionedRowIsCompared(data, ix, i);
    MentionedRowIsCompared(data, ix, j);
  }

  /** Every mentioned row has a line in the comparison columns. */
  lemma MentionedRowIsCompared(data: Table, ix: seq<nat>, i: nat)
    requires InRange(ix, |data|) && i in ix
    ensures CompareRowOf(data[i]) in CompareColumns(Select(data, ix))
  {
    var k :| 0 <= k < |ix| && ix[k] == i;
    ColumnsHoldRow(Select(data, ix), k);
  }

  lemma ColumnsHoldRow(rows: Table, k: nat)
    requires k < |rows|
    ensures CompareRowOf(rows[k]) in CompareColumns(rows)
  {
    assert CompareColumns(rows)[k] == CompareRowOf(rows[k]);
  }

  /** A top-word question gets the ten largest rows (or the whole table when
      it is shorter), best first, and no row left out has more cases than
      any row included. */
  lemma TopQuestionShape(data: Table, question: string)
    requires Classify(question) == TopList
    ensures Route(data, question).Top?
    ensures |Route(data, question).top| == Min(TopCount, |data|)
    ensures forall a, b :: 0 <= a < b < |Route(data, question).top| ==>
              Route(data, question).top[a].cases >= Route(data, question).top[b].cases
  {
  }
}

=== FILE: seqs.dfy ===
/** Row selection by position: the index-based view of a table filter that
    keeps source order. */
module Seqs {

  /** Positions listed in strictly increasing order (so each at most once). */
  predicate Increasing(ix: seq<nat>) {
    forall a, b :: 0 <= a < b < |ix| ==> ix[a] < ix[b]
  }

  /** Every listed position is a valid index into a sequence of length `n`. */
  predicate InRange(ix: seq<nat>, n: nat) {
    forall k :: 0 <= k < |ix| ==> ix[k] < n
  }

  /** The positions `i` in `[lo, |s|)` with `p(s[i])`, in increasing order. */
  function FilterFrom<T>(s: seq<T>, p: T -> bool, lo: nat): (ix: seq<nat>)
    requires lo <= |s|
    ensures Increasing(ix)
    ensures forall k :: 0 <= k < |ix| ==> lo <= ix[k] < |s|
    ensures forall i :: lo <= i < |s| ==> (i in ix <==> p(s[i]))
    decreases |s| - lo
  {
    if lo == |s| then []
    else if p(s[lo]) then [lo] + FilterFrom(s, p, lo + 1)
    else FilterFrom(s, p, lo + 1)
  }

  /** The positions of `s` whose element satisfies `p`, in source order. */
  function FilterIndices<T>(s: seq<T>, p: T -> bool): (ix: seq<nat>)
    ensures Increasing(ix) && InRange(ix, |s|)
    ensures forall i :: 0 <= i < |s| ==> (i in ix <==> p(s[i]))
  {
    FilterFrom(s, p, 0)
  }

  /** The elements of `s` at the positions `ix`, in the order of `ix`. */
  function Select<T>(s: seq<T>, ix: seq<nat>): (r: seq<T>)
    requires InRange(ix, |s|)
    ensures |r| == |ix|
    ensures forall k :: 0 <= k < |ix| ==> r[k] == s[ix[k]]
  {
    seq(|ix|, k requires 0 <= k < |ix| => s[ix[k]])
  }

  /** `r` is `s` read at the increasing positions `ix`: a subsequence that
      keeps source order and takes each element at most once. */
  ghost predicate Selects<T>(r: seq<T>, s: seq<T>, ix: seq<nat>) {
    Increasing(ix) && InRange(ix, |s|) && r == Select(s, ix)
  }

  /** The elements of `s` satisfying `p`, kept in source order. */
  function Filter<T>(s: seq<T>, p: T -> bool): (r: seq<T>)
    ensures |r| <= |s|
    ensures forall k :: 0 <= k < |r| ==> r[k] in s && p(r[k])
    ensures forall i :: 0 <= i < |s| && p(s[i]) ==> s[i] in r
    ensures exists ix :: Selects(r, s, ix) && (forall i :: 0 <= i < |s| ==> (i in ix <==> p(s[i])))
  {
    var ix := FilterIndices(s, p);
    IncreasingBounded(ix, |s|);
    var r := Select(s, ix);
    assert Selects(r, s, ix);
    r
  }

  /** An increasing list of positions below `n` has at most `n` entries. */
  lemma {:induction false} IncreasingBounded(ix: seq<nat>, n: nat)
    requires Increasing(ix) && InRange(ix, n)
    ensures |ix| <= n
    decreases |ix|
  {
    if |ix| > 0 {
      var last := |ix| - 1;
      assert InRange(ix[..last], ix[last]);
      IncreasingBounded(ix[..last], ix[last]);
    }
  }

  /** Filters with predicates that agree on the elements pick the same positions. */
  lemma {:induction false} FilterFromCongruent<T>(s: seq<T>, p: T -> bool, q: T -> bool, lo: nat)
    requires lo <= |s|
    requires forall i :: lo <= i < |s| ==> p(s[i]) == q(s[i])
    ensures FilterFrom(s, p, lo) == FilterFrom(s, q, lo)
    decreases |s| - lo
  {
    if lo < |s| {
      FilterFromCongruent(s, p, q, lo + 1);
    }
  }
}

=== FILE: text.dfy ===
/** Character-level text operations the question router relies on:
    ASCII lower-casing, substring search and code-point lexicographic order. */
module Text {

  predicate IsUpper(c: char) {
    'A' <= c <= 'Z'
  }

  /** Lower-cases one ASCII capital letter; every other character is kept. */
  function LowerChar(c: char): (d: char)
    ensures !IsUpper(d)
    ensures !IsUpper(c) ==> d == c
    ensures IsUpper(c) ==> d as int - c as int == 'a' as int - 'A' as int
  {
    if IsUpper(c) then (c as int - 'A' as int + 'a' as int) as char else c
  }

  /** Lower-cases a whole string, character by character. */
  function Lower(s: string): (t: string)
    ensures |t| == |s|
    ensures forall i :: 0 <= i < |s| ==> t[i] == LowerChar(s[i])
  {
    seq(|s|, i requires 0 <= i < |s| => LowerChar(s[i]))
  }

  /** No character of `s` is an ASCII capital. */
  predicate IsLower(s: string) {
    forall i :: 0 <= i < |s| ==> !IsUpper(s[i])
  }

  lemma LowerIsLower(s: string)
    ensures IsLower(Lower(s))
  {
  }

  /** A string without capitals is its own lower-case form. */
  lemma LowerFixesLower(s: string)
    requires IsLower(s)
    ensures Lower(s) == s
  {
  }

  lemma LowerIdempotent(s: string)
    ensures Lower(Lower(s)) == Lower(s)
  {
    LowerIsLower(s);
    LowerFixesLower(Lower(s));
  }

  lemma LowerConcat(a: string, b: string)
    ensures Lower(a + b) == Lower(a) + Lower(b)
  {
  }

  /** `needle` sits in `hay` starting at position `i`. */
  predicate OccursAt(needle: string, hay: string, i: nat) {
    i + |needle| <= |hay| && hay[i..i + |needle|] == needle
  }

  /** `needle` is a substring of `hay` (the empty string is a substring of everything). */
  ghost predicate Occurs(needle: string, hay: string) {
    exists i: nat :: OccursAt(needle, hay, i)
  }

  /** When `hay` does not start with `needle`, an occurrence must lie in `hay[1..]`. */
  lemma OccursShift(needle: string, hay: string)
    requires |needle| <= |hay| && hay[..|needle|] != needle
    ensures Occurs(needle, hay) <==> Occurs(needle, hay[1..])
  {
    if Occurs(needle, hay) {
      var i: nat :| OccursAt(needle, hay, i);
      assert i != 0;
      assert hay[1..][i - 1..i - 1 + |needle|] == hay[i..i + |needle|];
      assert OccursAt(needle, hay[1..], i - 1);
    }
    if Occurs(needle, hay[1..]) {
      var j: nat :| OccursAt(needle, hay[1..], j);
      assert hay[1..][j..j + |needle|] == hay[j + 1..j + 1 + |needle|];
      assert OccursAt(needle, hay, j + 1);
    }
  }

  /** Python's `needle in hay` on strings: a left-to-right substring search. */
  function Contains(hay: string, needle: string): (b: bool)
    ensures b <==> Occurs(needle, hay)
    decreases |hay|
  {
    if |needle| > |hay| then
      false
    else if hay[..|needle|] == needle then
      assert OccursAt(needle, hay, 0);
      true
    else
      OccursShift(needle, hay);
      Contains(hay[1..], needle)
  }

  /** A string placed between any two others is found by the search. */
  lemma ContainsInfix(pre: string, w: string, post: string)
    ensures Contains(pre + w + post, w)
  {
    var hay := pre + w + post;
    assert hay[|pre|..|pre| + |w|] == w;
    assert OccursAt(w, hay, |pre|);
  }

  /** A string occurs at the end of any text it is appended to. */
  lemma OccursAtEnd(pre: string, w: string)
    ensures Occurs(w, pre + w)
  {
    assert (pre + w)[|pre|..|pre| + |w|] == w;
    assert OccursAt(w, pre + w, |pre|);
  }

  /** An occurrence survives appending more text. */
  lemma OccursExtend(w: string, a: string, b: string)
    requires Occurs(w, a)
    ensures Occurs(w, a + b)
  {
    var i: nat :| OccursAt(w, a, i);
    assert (a + b)[i..i + |w|] == a[i..i + |w|];
    assert OccursAt(w, a + b, i);
  }

  /** Python's `<` on strings: lexicographic order on code points, a proper
      prefix coming first. */
  predicate Less(a: string, b: string)
    decreases |a|
  {
    if |a| == 0 then |b| > 0
    else if |b| == 0 then false
    else if a[0] != b[0] then a[0] < b[0]
    else Less(a[1..], b[1..])
  }

  lemma {:induction false} LessIrreflexive(a: string)
    ensures !Less(a, a)
    decreases |a|
  {
    if |a| > 0 {
      LessIrreflexive(a[1..]);
    }
  }

  lemma {:induction false} LessTransitive(a: string, b: string, c: string)
    requires Less(a, b) && Less(b, c)
    ensures Less(a, c)
    decreases |a|
  {
    if |a| > 0 && a[0] == b[0] && b[0] == c[0] {
      LessTransitive(a[1..], b[1..], c[1..]);
    }
  }

  lemma {:induction false} LessTotal(a: string, b: string)
    requires a != b
    ensures Less(a, b) || Less(b, a)
    decreases |a|
  {
    if |a| > 0 && |b| > 0 && a[0] == b[0] {
      assert a == [a[0]] + a[1..] && b == [b[0]] + b[1..];
      LessTotal(a[1..], b[1..]);
    }
  }
}

=== FILE: wrappers.dfy ===
/** The optional-value type the model uses for cells that can be missing. */
module Wrappers {

  /** A value that may be absent; `None` stands for an empty (NaN) cell. */
  datatype Option<+T> = None | Some(value: T)
}
